=== FILE: README.md ===
# jason `Model<T>` in Dafny

A model of the in-memory core of the jason embedded document store: one table
of records held as an ordered sequence, an index from record `id` to position,
and the exact-match query helpers the table calls. Records, queries and
updates are plain objects of JSON primitives, modelled as `map<string, Value>`;
reading an absent key gives `Undefined`, exactly as `record[key]` does in
JavaScript for keys that are not inherited from `Object.prototype`, so the
match test `query[key] === record[key]` is modelled for present and absent keys
alike.

Every table operation is a pure function from the table before the call to a
`Step(table, result)` holding the table after it and the method's return value.
Three invariants are tracked:

- `Sound`: every index entry points inside the table, at a record with that id;
- `Complete`: every record with a string id has an index entry;
- `UniqueIds`: no two records share a string id.

Inserts keep all three (uniqueness needs a fresh id). Deletes re-establish
`Sound` and `Complete` by rebuilding the index. Updates keep them when the
update does not carry an `id` key. The constructor gives a sound but
incomplete index whenever a preloaded record has a string id.

Files:

- `wrappers.dfy`: `Option`, standing for `T | undefined`.
- `values.dfy`: values, `Field` (`obj[key]`), object spread and the inserted row `{ ...fields, id }`.
- `query_helpers.dfy`: `search`, `getIndex`, `searchOne` and their properties.
- `model.dfy`: the table, its invariants and every operation of `Model<T>` except `commit`.
- `model_properties.dfy`: properties relating several operations, and the test scenarios. The scenarios build their table with `NewTable([])`, as the tests do; over no records it is the same table as `NewTableIndexed([])`.
- `as_written.dfy`: `findById`, `updateOneById` and `deleteOneById` exactly as written, set against the documented behaviour.

Caller-supplied values stand in for what the source gets from outside:
`randomUUID()` becomes an `id` parameter of `InsertOne` and a sequence `ids`
(one per record) of `InsertMany`. The table a `Model` is constructed over
becomes the `initial` parameter of `NewTable`; a table missing from the
database is `initial == []`.

## Model

| member | source | states |
|---|---|---|
| `Values.Spread` | src/Model.ts:122 | `{ ...base, ...over }` has the keys of both objects, and `over`'s value wins on every shared key |
| `Values.WithId` | src/Model.ts:58 | the inserted row carries the given string id, and every other field keeps the caller's value |
| `QueryHelpers.Search` | src/utils/queryHelpers.ts:3-10 | the result is never longer than `data`, and every record in it matches the query |
| `QueryHelpers.SearchCounts` | src/utils/queryHelpers.ts:7-9 | each matching record occurs in the result exactly as often as in `data`, and a non-matching record not at all |
| `QueryHelpers.SearchMembers` | src/utils/queryHelpers.ts:7-9 | a record is in the result if and only if it is in `data` and matches |
| `QueryHelpers.SearchAppend` | src/utils/queryHelpers.ts:7-9 | searching `a + b` gives the search of `a` followed by the search of `b`, so table order is kept |
| `QueryHelpers.SearchSingleton` | src/utils/queryHelpers.ts:7-9 | a single record is kept if and only if it matches; with `SearchAppend` this determines the result completely |
| `QueryHelpers.SearchEmptyQuery` | src/utils/queryHelpers.ts:8 | the empty query `{}` returns `data` unchanged |
| `QueryHelpers.SearchIdempotent` | src/utils/queryHelpers.ts:7-9 | searching a search result again with the same query changes nothing |
| `QueryHelpers.SearchNoMatch` | src/utils/queryHelpers.ts:7-9 | when no record matches, the result is empty |
| `QueryHelpers.GetIndex` | src/utils/queryHelpers.ts:23-30 | the result is -1 if and only if no record matches; otherwise it is a position in `data` whose record matches, with no match before it |
| `QueryHelpers.SearchOne` | src/utils/queryHelpers.ts:12-21 | the result is `undefined` if and only if no record matches and `search` is empty; otherwise it is a matching record of `data` and the first element of `search` |
| `QueryHelpers.SearchHeadIsFirstMatch` | src/utils/queryHelpers.ts:3-30 | `getIndex` is -1 exactly when `search` is empty, and otherwise `search`'s first element is the record at `getIndex` |
| `QueryHelpers.SearchWithoutFirstMatch` | src/utils/queryHelpers.ts:7-9 | with no match in `pre`, searching `pre + [x] + post` for a matching `x` gives `x` followed by the search of `pre + post` |
| `QueryHelpers.SearchWithoutMatchAt` | src/utils/queryHelpers.ts:3-30 | splicing out the first match of `data` removes exactly the head of `search`'s result |
| `Model.BuildIndexes` | src/Model.ts:24-29 | the rebuilt index is sound and complete, and a repeated id maps to its last position |
| `Model.BuildIndexesOwnPosition` | src/Model.ts:24-29 | with unique ids, the rebuilt index maps every record's id to the record's own position |
| `Model.NewTable` | src/Model.ts:38-46 | the constructed table holds the initial records with a sound index, which is complete only if no initial record has a string id |
| `Model.NewTableIndexed` | src/Model.ts:24-46 | a constructor that builds the index holds the initial records with a sound and complete index |
| `Model.Lookup` | src/Model.ts:97 | for a sound index, a position is found exactly for indexed ids and holds a record with that id; with a complete index and unique ids, the found position is the one record carrying the id |
| `Model.InsertOne` | src/Model.ts:56-61 | returns the id; appends exactly one row, with that id and the caller's other fields, leaving earlier rows unchanged; `findById(id)` then yields that row; in-range entries, soundness and completeness are kept, and uniqueness too when the id is fresh |
| `Model.InsertMany` | src/Model.ts:70-76 | the table becomes the old rows followed by each record with its own id, in the given order |
| `Model.InsertManySingle` | src/Model.ts:56-76 | `insertMany` of one record is `insertOne` of it |
| `Model.InsertManyAppend` | src/Model.ts:70-76 | `insertMany(a + b)` is `insertMany(a)` followed by `insertMany(b)`, so `insertMany` is `insertOne` folded over the records in order |
| `Model.InsertManyIndexes` | src/Model.ts:70-76 | the index gains exactly the generated ids, each at its row's position when the ids are distinct, and every other entry stays |
| `Model.InsertManyKeepsInRange` | src/Model.ts:70-76 | `insertMany` keeps every index entry inside the table |
| `Model.InsertManyKeepsSound` | src/Model.ts:70-76 | `insertMany` keeps the index sound |
| `Model.InsertManyKeepsComplete` | src/Model.ts:70-76 | `insertMany` keeps the index complete |
| `Model.InsertManyKeepsUniqueIds` | src/Model.ts:70-76 | `insertMany` keeps ids unique when the generated ids are fresh and pairwise distinct |
| `Model.FindOne` | src/Model.ts:87-89 | the result is `undefined` if and only if no record matches, and otherwise it is the first record `findMany` returns |
| `Model.FindMany` | src/Model.ts:108-110 | a record is returned if and only if it is in the table and matches; the empty query returns the whole table |
| `Model.FindById` | src/Model.ts:96-100 | the result is a record of the table; an id without an index entry is "not found" for every table; for a sound index it is found exactly when the id is indexed and carries that id; with a complete index it is "not found" exactly when no record has the id |
| `Model.UpdateOneById` | src/Model.ts:119-126 | returns 1 exactly for an indexed id and -1 otherwise, leaving the table unchanged on -1; on 1 only the indexed record changes, each field taking the update's value when named and the old value otherwise; without an `id` key in the update, soundness, completeness and uniqueness are kept |
| `Model.SpliceMultiset` | src/Model.ts:138 | `splice(i, 1)` removes exactly one occurrence of the record at `i` and nothing else |
| `Model.SpliceKeepsUniqueIds` | src/Model.ts:138 | `splice` keeps ids unique, and no remaining record has the removed record's id |
| `Model.RemoveAt` | src/Model.ts:138-139 | the record at the position is spliced out, the others keep their order, the multiset of records loses exactly it, and the rebuilt index is sound and complete |
| `Model.DeleteOne` | src/Model.ts:135-142 | returns `undefined` and leaves the table unchanged if and only if nothing matches; otherwise it removes and returns the first match (the record `findOne` returns), keeps the others in order, and leaves a sound and complete index |
| `Model.DeleteOneById` | src/Model.ts:150-157 | for a sound index, removes a record exactly when the id is indexed, namely the one at the id's index position, and the removed record carries the id; otherwise the table is unchanged; with unique ids the id is then not found |
| `ModelProperties.IdQueryMatches` | src/utils/queryHelpers.ts:8 | the query `{ id }` matches exactly the records whose id is `id` |
| `ModelProperties.FindByIdAgreesWithFindOne` | src/Model.ts:87-100 | with a sound, complete index over unique ids, `findById(id)` and `findOne({ id })` agree |
| `ModelProperties.DeleteOneDropsFirstMatch` | src/Model.ts:135-142 | when some record matches `q`, after `deleteOne(q)` `findMany(q)` returns the old result without its first element |
| `ModelProperties.DeleteOneByIdKeepsOthers` | src/Model.ts:150-157 | after `deleteOneById(id)`, every other record is still found by its own id |
| `ModelProperties.DeleteOneByIdRemovesTheId` | src/Model.ts:150-157 | `deleteOneById` of an indexed id shrinks the table by one and leaves no record with that id |
| `ModelProperties.UpdateThenFindById` | src/Model.ts:119-124 | after an update without `id`, `findById` yields the old record overridden by the update |
| `ModelProperties.UpdateRewritingIdBreaksSoundness` | src/Model.ts:122 | an update carrying a different `id` leaves an index entry pointing at a record with another id |
| `ModelProperties.InsertManyThenFindById` | src/Model.ts:70-76 | with distinct generated ids, every record `insertMany` appends is found by its id |
| `ModelProperties.InsertManyThenFindAll` | __tests__/index.test.ts:23-35 | `insertMany` into a new table followed by `findMany({})` returns the records with their ids, in insertion order |
| `ModelProperties.InsertOneScenario` | __tests__/index.test.ts:14-21 | `insertOne({ name: "John Doe" })` then `findById(id)` yields `{ id, name: "John Doe" }` |
| `ModelProperties.UpdateScenario` | __tests__/index.test.ts:38-46 | an update of `name` after that insert returns 1 and `findById(id)` yields `{ id, name: "Not John Doe" }` |
| `ModelProperties.EmptyTableFindsNothing` | __tests__/index.test.ts:48-68 | on an empty table `findById` and `findOne` report "not found" |
| `AsWritten.NewLiteralTable` | src/Model.ts:38-46 | a constructed table holds the initial records with every index entry in range, and for every id the literal `findById` agrees with the documented one: both find nothing |
| `AsWritten.FindByIdAsWritten` | src/Model.ts:96-100 | as written, an id without an index entry reads `data[undefined]`: the object stored there by an earlier literal update, and "not found" only while none is stored; an indexed id gives the documented result |
| `AsWritten.UpdateOneByIdAsWritten` | src/Model.ts:119-126 | as written, the method always returns 1; for an id without an index entry it changes no record but stores `{ ...data[undefined], ...update }` under the array's `"undefined"` property; for an indexed id it is the documented update |
| `AsWritten.AbsentUpdateLeaksIntoFindById` | src/Model.ts:96-125 | after a literal update of an unindexed id, the literal `findById` of any other unindexed id returns the update's fields, where the documented one reports "not found" |
| `AsWritten.UpdateAbsentExample` | src/Model.ts:96-125 | on `[{ id: "a" }]` indexed `{ a: 0 }`, the literal `updateOneById("b", { name: "x" })` returns 1 and `findById("c")` then returns `{ name: "x" }`; the documented methods return -1 and "not found" |
| `AsWritten.DeleteOneByIdAsWritten` | src/Model.ts:150-157 | as written, a record is removed exactly when the table is non-empty: the first record when the id has no index entry |
| `AsWritten.UpdateAbsentIdReportsSuccess` | src/Model.ts:117-125 | for an unindexed id the documented method returns -1 while the literal one returns 1 |
| `AsWritten.DeleteAbsentIdRemovesFirst` | src/Model.ts:148-156 | for an unindexed id in a non-empty table the documented method deletes nothing while the literal one deletes the first record |
| `AsWritten.PreloadedRecordNotFoundById` | src/Model.ts:38-46 | a preloaded record is not found by its id through the constructor's empty index, but is through a built index |
| `AsWritten.PreloadedExample` | src/Model.ts:38-46 | the table `[{ id: "a" }]` constructed as written does not find "a"; constructed with an index it does |
| `AsWritten.DeleteAbsentExample` | src/Model.ts:150-157 | on `[{ id: "a" }]` indexed as `{ a: 0 }`, the literal `deleteOneById("b")` removes `{ id: "a" }`; the documented one removes nothing |

## Left out

- `commit` (src/Model.ts:162-165) and `Init` (src/db.ts:6-18): file reads and writes, `JSON.stringify`/`JSON.parse` and `async`/`await` are I/O and foreign library calls.
- The process-wide `data` and `filePath` globals and the constructor's aliasing of `data[tableName]` (src/db.ts:3-4, src/Model.ts:41-45): the initial table is the `initial` parameter of `NewTable`. Tables created lazily are therefore not modelled, and neither is the fact that two `Model`s of one table share an array.
- `randomUUID`: ids are parameters. Freshness is a precondition only where uniqueness of ids is concluded. Soundness and `findById` after an insert hold without it, because the insert overwrites the id's index entry.
- Numbers are integers: JSON numbers are IEEE doubles, and `NaN !== NaN` and `0 === -0` are not modelled.
- Field values are primitives only: `===` on nested objects and arrays compares references.
- Properties inherited from `Object.prototype`: `record[key]` for a key such as `"toString"` reads an inherited function in JavaScript. The model reads `Undefined` there.
- Model.BuildIndexes: records whose `id` is not a string are not entered in the index. The JavaScript `Map` would hold them under a non-string key, which a lookup with a string id never reaches.
- Model.Lookup: an index entry outside the table is treated as absent. No reachable state has one: `NewTable` establishes `InRange` (every entry inside the table), and `InsertOne`, `InsertManyKeepsInRange`, `UpdateOneById`, `DeleteOne` and `DeleteOneById` keep it. For the same reason `AsWritten` requires `InRange`, because JavaScript would grow the array with holes on such an entry.
- Model.UpdateOneById: the shallow merge is modelled for primitive fields only. Updates that carry an `id` key are modelled, and `UpdateRewritingIdBreaksSoundness` shows they break the index.
- The `-1` check at src/Model.ts:98 (`findById`) is dead too. `data[undefined]` is `undefined`, which `Model.FindById` returns for an absent id, only while no literal `updateOneById` of an unindexed id has stored an object there. `AsWritten.FindByIdAsWritten` models the general case. The documented model has no such slot.
- References: `findOne`, `findById`, `findMany` and `deleteOne` return the stored objects themselves (src/Model.ts:88, :99, :109, :138). A caller that edits a returned record edits the table, and editing its `id` breaks `Sound` without any call to `updateOneById`. `updateOneById` replaces the stored object (src/Model.ts:122), so a reference a caller already holds goes stale. The model returns values. `Sound` and the other invariants therefore hold only if callers never mutate returned records.

## Findings

| source | as written | input that shows it | evidently intended | confidence | as-written member | corrected member |
|---|---|---|---|---|---|---|
| src/Model.ts:119-126 | `indexes.get(id)` gives `undefined` for an absent id, so `index !== -1` holds and the method returns 1 after storing the merged object under the array's `"undefined"` property, which every later `findById` of an unindexed id returns | `updateOneById("b", { name: "x" })` on `[{ id: "a" }]` indexed `{ a: 0 }` returns 1, and `findById("c")` then returns `{ name: "x" }` (`AsWritten.UpdateAbsentExample`) | return -1, as the doc comment at src/Model.ts:117 says | not executed; high | `AsWritten.UpdateOneByIdAsWritten` | `Model.UpdateOneById` |
| src/Model.ts:150-157 | for an absent id, `splice(undefined, 1)` starts at 0 and removes the first record | `deleteOneById("b")` on `[{ id: "a" }]` indexed `{ a: 0 }` removes and returns `{ id: "a" }` (`AsWritten.DeleteAbsentExample`) | return `undefined` and delete nothing, as the doc comment at src/Model.ts:148 says | not executed; high | `AsWritten.DeleteOneByIdAsWritten` | `Model.DeleteOneById` |
| src/Model.ts:38-46 | the constructor starts with an empty index even over preloaded records, so `findById` misses them until a delete rebuilds the index | `findById("a")` on a table constructed over `[{ id: "a" }]` is `undefined` (`AsWritten.PreloadedExample`) | build the index over the initial records | not executed; medium | `Model.NewTable` | `Model.NewTableIndexed` |

=== FILE: as_written.dfy ===
/**
 * `findById`, `updateOneById` and `deleteOneById` exactly as src/Model.ts writes them.
 *
 * All three compare the result of `indexes.get(id)` with -1, but an absent key
 * yields `undefined`, never -1, so the "not found" branch is dead:
 *  - `updateOneById` then evaluates `data[undefined] = { ...data[undefined], ...update }`:
 *    no record changes, but the merged object is stored on the array under the
 *    property name `"undefined"`, and the method returns 1;
 *  - `findById` then returns `data[undefined]`: `undefined` until such an update
 *    has run, and the stored object after it, for every id without an entry;
 *  - `deleteOneById` then calls `splice(undefined, 1)`, whose start coerces to 0,
 *    and removes the first record.
 * The members below model that behaviour; the lemmas set it against the
 * documented one, which the rest of the model uses (Model.FindById,
 * Model.UpdateOneById, Model.DeleteOneById).
 */
module AsWritten {
  import opened Wrappers
  import opened Values
  import opened Model

  /**
   * The state as the literal methods see it: the table, plus the object stored
   * under the array's `"undefined"` property (`None` while nothing is stored there).
   * Array methods (`push`, `splice`, `filter`, `findIndex`) never touch that property.
   */
  datatype LiteralTable = LiteralTable(table: Table, undef: Option<Fields>)

  /** A literal table after an operation, with the operation's return value. */
  datatype LiteralStep<+R> = LiteralStep(state: LiteralTable, result: R)

  /**
   * The constructor as written: nothing is stored under `"undefined"` in a fresh
   * table, so the literal `findById` agrees with the documented one, and with the
   * empty index both find nothing.
   */
  function NewLiteralTable(initial: seq<Fields>): (lt: LiteralTable)
    ensures InRange(lt.table) && lt.table.data == initial
    ensures forall id :: FindByIdAsWritten(lt, id) == FindById(lt.table, id) == None
  {
    LiteralTable(NewTable(initial), None)
  }

  /**
   * `findById` as written: for an id without an index entry it reads `data[undefined]`.
   * While nothing is stored there it agrees with the documented `Model.FindById`.
   */
  function FindByIdAsWritten(lt: LiteralTable, id: string): (r: Option<Fields>)
    requires InRange(lt.table)
    ensures id !in lt.table.indexes ==> r == lt.undef
    ensures id in lt.table.indexes ==> r == FindById(lt.table, id)
    ensures lt.undef.None? ==> r == FindById(lt.table, id)
  {
    if id in lt.table.indexes then Some(lt.table.data[lt.table.indexes[id]]) else lt.undef
  }

  /**
   * `updateOneById` as written: it reports success whether or not the id is indexed;
   * for an unindexed id it changes no record but merges `update` into `data[undefined]`.
   */
  function UpdateOneByIdAsWritten(lt: LiteralTable, id: string, update: Fields): (r: LiteralStep<int>)
    requires InRange(lt.table)
    ensures r.result == 1
    ensures InRange(r.state.table)
    ensures id !in lt.table.indexes ==>
      r.state.table == lt.table
      && r.state.undef.Some?
      && forall k :: Field(r.state.undef.value, k)
                     == (if k in update then update[k]
                         else if lt.undef.Some? then Field(lt.undef.value, k) else Undefined)
    ensures id in lt.table.indexes ==>
      r.state.table == UpdateOneById(lt.table, id, update).table && r.state.undef == lt.undef
  {
    if id in lt.table.indexes then
      LiteralStep(LiteralTable(UpdateOneById(lt.table, id, update).table, lt.undef), 1)
    else
      var stored := match lt.undef case Some(o) => o case None => map[];
      LiteralStep(LiteralTable(lt.table, Some(Spread(stored, update))), 1)
  }

  /**
   * `deleteOneById` as written: a non-empty table always loses a record, the first
   * one when the id is absent. It works on the table alone: `splice` and
   * `buildIndexes` leave the array's `"undefined"` property as it was.
   */
  function DeleteOneByIdAsWritten(t: Table, id: string): (r: Step<Option<Fields>>)
    requires InRange(t)
    ensures |t.data| > 0 <==> r.result.Some?
    ensures id !in t.indexes && |t.data| > 0 ==> r.result == Some(t.data[0]) && r.table.data == t.data[1..]
    ensures id in t.indexes ==> r == DeleteOneById(t, id)
    ensures Sound(r.table) && Complete(r.table)
  {
    var start := if id in t.indexes then t.indexes[id] else 0;
    if start < |t.data| then RemoveAt(t, start)
    else Step(Table(t.data, BuildIndexes(t.data)), None)
  }

  /** For an id without an index entry the documented method reports -1; the literal one reports 1. */
  lemma UpdateAbsentIdReportsSuccess(lt: LiteralTable, id: string, update: Fields)
    requires InRange(lt.table) && id !in lt.table.indexes
    ensures UpdateOneById(lt.table, id, update).result == -1
    ensures UpdateOneByIdAsWritten(lt, id, update).result == 1
  {
  }

  /**
   * After a literal update of an unindexed id, the literal `findById` of every
   * other unindexed id returns the merged object instead of `undefined`.
   */
  lemma AbsentUpdateLeaksIntoFindById(lt: LiteralTable, id: string, update: Fields, other: string)
    requires InRange(lt.table) && lt.undef.None?
    requires id !in lt.table.indexes && other !in lt.table.indexes
    ensures FindById(lt.table, other) == None
    ensures FindByIdAsWritten(UpdateOneByIdAsWritten(lt, id, update).state, other) == Some(update)
  {
    assert map[] + update == update;
  }

  /**
   * A concrete instance: on `[{ id: "a" }]` indexed `{ a: 0 }`, the literal
   * `updateOneById("b", { name: "x" })` returns 1, and `findById("c")` then
   * returns `{ name: "x" }`; the documented methods return -1 and "not found".
   */
  lemma UpdateAbsentExample()
    ensures
      var lt := LiteralTable(Table([map["id" := Str("a")]], map["a" := 0]), None);
      var u := UpdateOneByIdAsWritten(lt, "b", map["name" := Str("x")]);
      var d := UpdateOneById(lt.table, "b", map["name" := Str("x")]);
      u.result == 1 && FindByIdAsWritten(u.state, "c") == Some(map["name" := Str("x")])
      && d.result == -1 && FindById(d.table, "c") == None
  {
    var lt := LiteralTable(Table([map["id" := Str("a")]], map["a" := 0]), None);
    AbsentUpdateLeaksIntoFindById(lt, "b", map["name" := Str("x")], "c");
  }

  /**
   * For an id without an index entry the documented method deletes nothing; the
   * literal one deletes the table's first record, whatever its id.
   */
  lemma DeleteAbsentIdRemovesFirst(t: Table, id: string)
    requires InRange(t) && id !in t.indexes && |t.data| > 0
    ensures DeleteOneById(t, id) == Step(t, None)
    ensures DeleteOneByIdAsWritten(t, id).result == Some(t.data[0])
    ensures |DeleteOneByIdAsWritten(t, id).table.data| == |t.data| - 1
  {
  }

  /**
   * The constructor leaves the index empty, so a preloaded record is not found by
   * its id; the indexed constructor finds it.
   */
  lemma PreloadedRecordNotFoundById(initial: seq<Fields>, i: nat, id: string)
    requires i < |initial| && IdOf(initial[i]) == Some(id)
    ensures FindById(NewTable(initial), id) == None
    ensures FindById(NewTableIndexed(initial), id).Some?
  {
  }

  /** A concrete instance: one preloaded record `{ id: "a" }`. */
  lemma PreloadedExample()
    ensures FindById(NewTable([map["id" := Str("a")]]), "a") == None
    ensures FindById(NewTableIndexed([map["id" := Str("a")]]), "a") == Some(map["id" := Str("a")])
  {
  }

  /** A concrete instance: deleting the unknown id "b" from `[{ id: "a" }]` removes `{ id: "a" }`. */
  lemma DeleteAbsentExample()
    ensures
      var t := Table([map["id" := Str("a")]], map["a" := 0]);
      DeleteOneByIdAsWritten(t, "b") == Step(Table([], map[]), Some(map["id" := Str("a")]))
      && DeleteOneById(t, "b") == Step(t, None)
  {
  }
}

=== FILE: model.dfy ===
/**
 * The in-memory table behind `Model<T>` (src/Model.ts): the records of one table
 * in insertion order, plus an index from record id to position.
 *
 * Every operation is a pure function from the table before the call to a `Step`
 * holding the table after it and the value the method returns.
 */
module Model {
  import opened Wrappers
  import opened Values
  import opened QueryHelpers

  /** The `data` array and the `indexes` map of one `Model<T>`. */
  datatype Table = Table(data: seq<Fields>, indexes: map<string, nat>)

  /** The table after an operation, with the operation's return value. */
  datatype Step<+R> = Step(table: Table, result: R)

  /** Every index entry points inside `data`, at a record carrying that id. */
  ghost predicate Sound(t: Table)
  {
    forall id :: id in t.indexes ==> t.indexes[id] < |t.data| && IdOf(t.data[t.indexes[id]]) == Some(id)
  }

  /** Every record with a string id has an index entry. */
  ghost predicate Complete(t: Table)
  {
    forall i :: 0 <= i < |t.data| && IdOf(t.data[i]).Some? ==> IdOf(t.data[i]).value in t.indexes
  }

  /** No two records share a string id. */
  ghost predicate UniqueIds(data: seq<Fields>)
  {
    forall i, j :: 0 <= i < |data| && 0 <= j < |data| && i != j && IdOf(data[i]).Some? ==> IdOf(data[i]) != IdOf(data[j])
  }

  /** Every index entry points inside `data`: kept by every operation, even an update that rewrites `id`. */
  ghost predicate InRange(t: Table)
  {
    forall id :: id in t.indexes ==> t.indexes[id] < |t.data|
  }

  /** No record of `data` has id `id`: what a fresh UUID is assumed to satisfy. */
  ghost predicate Fresh(data: seq<Fields>, id: string)
  {
    forall i :: 0 <= i < |data| ==> IdOf(data[i]) != Some(id)
  }

  /** `after` is `before` with the record at position `i` spliced out. */
  ghost predicate RemovedAt(before: seq<Fields>, after: seq<Fields>, i: int)
  {
    0 <= i < |before| && after == before[..i] + before[i + 1..]
  }

  /**
   * `buildIndexes`: walks `data` in order and sets `id -> position` for each record,
   * so a repeated id ends up at its last position. Records without a string id
   * are skipped: a string lookup could never reach them.
   */
  function BuildIndexes(data: seq<Fields>): (idx: map<string, nat>)
    ensures forall id :: id in idx ==> idx[id] < |data| && IdOf(data[idx[id]]) == Some(id)
    ensures forall i :: 0 <= i < |data| && IdOf(data[i]).Some? ==> IdOf(data[i]).value in idx
    ensures forall id, j :: id in idx && idx[id] < j < |data| ==> IdOf(data[j]) != Some(id)
    decreases |data|
  {
    if |data| == 0 then map[]
    else
      var last := |data| - 1;
      var prefix := BuildIndexes(data[..last]);
      assert forall j :: 0 <= j < last ==> data[..last][j] == data[j];
      match IdOf(data[last])
      case Some(id) => prefix[id := last]
      case None => prefix
  }

  /** With unique ids, the rebuilt index maps every record's id to the record's own position. */
  lemma BuildIndexesOwnPosition(data: seq<Fields>)
    requires UniqueIds(data)
    ensures forall i :: 0 <= i < |data| && IdOf(data[i]).Some? ==> BuildIndexes(data)[IdOf(data[i]).value] == i
  {
  }

  /**
   * The constructor, with the table's initial records as a parameter: it starts
   * with an empty index even when `initial` is not empty.
   */
  function NewTable(initial: seq<Fields>): (t: Table)
    ensures t.data == initial
    ensures Sound(t) && InRange(t)
    ensures Complete(t) <==> forall i :: 0 <= i < |initial| ==> IdOf(initial[i]).None?
  {
    Table(initial, map[])
  }

  /** The constructor as it was evidently meant: with the index built from the initial records. */
  function NewTableIndexed(initial: seq<Fields>): (t: Table)
    ensures t.data == initial
    ensures Sound(t) && Complete(t)
  {
    Table(initial, BuildIndexes(initial))
  }

  /** `indexes.get(id)` read as found-at-position or absent; an entry outside `data` counts as absent. */
  function Lookup(t: Table, id: string): (r: Option<nat>)
    ensures r.Some? ==> r.value < |t.data|
    ensures Sound(t) ==> (r.Some? <==> id in t.indexes)
    ensures Sound(t) && r.Some? ==> IdOf(t.data[r.value]) == Some(id)
    ensures Sound(t) && Complete(t) && UniqueIds(t.data) ==>
      forall i :: 0 <= i < |t.data| ==> (r == Some(i) <==> IdOf(t.data[i]) == Some(id))
  {
    if id in t.indexes && t.indexes[id] < |t.data| then Some(t.indexes[id]) else None
  }

  /** `insertOne`, with the generated UUID passed in as `id`. */
  function InsertOne(t: Table, record: Fields, id: string): (r: Step<string>)
    ensures r.result == id
    ensures |r.table.data| == |t.data| + 1 && r.table.data[..|t.data|] == t.data
    ensures IdOf(r.table.data[|t.data|]) == Some(id)
    ensures forall k :: k != "id" ==> Field(r.table.data[|t.data|], k) == Field(record, k)
    ensures FindById(r.table, id) == Some(WithId(record, id))
    ensures InRange(t) ==> InRange(r.table)
    ensures Sound(t) ==> Sound(r.table)
    ensures Complete(t) ==> Complete(r.table)
    ensures UniqueIds(t.data) && Fresh(t.data, id) ==> UniqueIds(r.table.data)
  {
    Step(AppendRow(t, record, id), id)
  }

  /** The step `insertOne` and `insertMany` share: push `{ ...record, id }` and index it at the new last position. */
  function AppendRow(t: Table, record: Fields, id: string): Table
  {
    Table(t.data + [WithId(record, id)], t.indexes[id := |t.data|])
  }

  /** `insertMany`'s rows: each record with its own generated id. */
  function Tagged(records: seq<Fields>, ids: seq<string>): (rows: seq<Fields>)
    requires |ids| == |records|
  {
    seq(|records|, i requires 0 <= i < |records| => WithId(records[i], ids[i]))
  }

  /** Pairwise distinct ids. */
  ghost predicate Distinct(ids: seq<string>)
  {
    forall i, j :: 0 <= i < j < |ids| ==> ids[i] != ids[j]
  }

  /** `insertMany`: the `insertOne` step once per record, in order; `ids` are the generated UUIDs. */
  function InsertMany(t: Table, records: seq<Fields>, ids: seq<string>): (r: Table)
    requires |ids| == |records|
    ensures r.data == t.data + Tagged(records, ids)
    decreases |records|
  {
    if |records| == 0 then t
    else
      var next := AppendRow(t, records[0], ids[0]);
      assert Tagged(records, ids) == [WithId(records[0], ids[0])] + Tagged(records[1..], ids[1..]);
      InsertMany(next, records[1..], ids[1..])
  }

  /** `insertMany` of a single record is `insertOne` of it. */
  lemma InsertManySingle(t: Table, record: Fields, id: string)
    ensures InsertMany(t, [record], [id]) == InsertOne(t, record, id).table
  {
  }

  /** `insertMany` of `a + b` is `insertMany` of `a`, then of `b`: with `InsertManySingle`, a fold of `insertOne`. */
  lemma {:induction false} InsertManyAppend(t: Table, a: seq<Fields>, b: seq<Fields>, idsA: seq<string>, idsB: seq<string>)
    requires |idsA| == |a| && |idsB| == |b|
    ensures InsertMany(t, a + b, idsA + idsB) == InsertMany(InsertMany(t, a, idsA), b, idsB)
    decreases |a|
  {
    if |a| == 0 {
      assert a + b == b && idsA + idsB == idsB;
    } else {
      var next := AppendRow(t, a[0], idsA[0]);
      assert (a + b)[0] == a[0] && (idsA + idsB)[0] == idsA[0];
      assert (a + b)[1..] == a[1..] + b && (idsA + idsB)[1..] == idsA[1..] + idsB;
      InsertManyAppend(next, a[1..], b, idsA[1..], idsB);
    }
  }

  /**
   * `insertMany`'s index: it gains exactly the generated ids, each at its row's
   * position when the ids are distinct, and every other entry stays.
   */
  lemma {:induction false} InsertManyIndexes(t: Table, records: seq<Fields>, ids: seq<string>)
    requires |ids| == |records|
    ensures forall id :: id in InsertMany(t, records, ids).indexes <==> id in t.indexes || id in ids
    ensures Distinct(ids) ==>
      forall i :: 0 <= i < |ids| ==> InsertMany(t, records, ids).indexes[ids[i]] == |t.data| + i
    ensures forall id :: id in t.indexes && id !in ids ==> InsertMany(t, records, ids).indexes[id] == t.indexes[id]
    decreases |records|
  {
    if |records| > 0 {
      var next := AppendRow(t, records[0], ids[0]);
      assert InsertMany(t, records, ids) == InsertMany(next, records[1..], ids[1..]);
      InsertManyIndexes(next, records[1..], ids[1..]);
      assert ids == [ids[0]] + ids[1..];
      if Distinct(ids) {
        assert Distinct(ids[1..]) && ids[0] !in ids[1..];
        forall i | 0 <= i < |ids|
          ensures InsertMany(t, records, ids).indexes[ids[i]] == |t.data| + i
        {
          if i > 0 {
            assert ids[i] == ids[1..][i - 1];
          }
        }
      }
    }
  }

  /** `insertMany` keeps the index sound. */
  lemma {:induction false} InsertManyKeepsSound(t: Table, records: seq<Fields>, ids: seq<string>)
    requires |ids| == |records|
    requires Sound(t)
    ensures Sound(InsertMany(t, records, ids))
    decreases |records|
  {
    if |records| > 0 {
      var next := AppendRow(t, records[0], ids[0]);
      assert InsertMany(t, records, ids) == InsertMany(next, records[1..], ids[1..]);
      InsertManyKeepsSound(next, records[1..], ids[1..]);
    }
  }

  /** `insertMany` keeps every index entry inside the table. */
  lemma {:induction false} InsertManyKeepsInRange(t: Table, records: seq<Fields>, ids: seq<string>)
    requires |ids| == |records|
    requires InRange(t)
    ensures InRange(InsertMany(t, records, ids))
    decreases |records|
  {
    if |records| > 0 {
      var next := AppendRow(t, records[0], ids[0]);
      assert InsertMany(t, records, ids) == InsertMany(next, records[1..], ids[1..]);
      InsertManyKeepsInRange(next, records[1..], ids[1..]);
    }
  }

  /** `insertMany` keeps the index complete. */
  lemma {:induction false} InsertManyKeepsComplete(t: Table, records: seq<Fields>, ids: seq<string>)
    requires |ids| == |records|
    requires Complete(t)
    ensures Complete(InsertMany(t, records, ids))
    decreases |records|
  {
    if |records| > 0 {
      var next := AppendRow(t, records[0], ids[0]);
      assert InsertMany(t, records, ids) == InsertMany(next, records[1..], ids[1..]);
      InsertManyKeepsComplete(next, records[1..], ids[1..]);
    }
  }

  /** `insertMany` keeps ids unique when the generated ids are fresh and pairwise distinct. */
  lemma InsertManyKeepsUniqueIds(t: Table, records: seq<Fields>, ids: seq<string>)
    requires |ids| == |records|
    requires UniqueIds(t.data) && Distinct(ids)
    requires forall i :: 0 <= i < |ids| ==> Fresh(t.data, ids[i])
    ensures UniqueIds(InsertMany(t, records, ids).data)
  {
  }

  /** `findOne`: the first record matching `query`, or `undefined`. */
  function FindOne(t: Table, query: Fields): (r: Option<Fields>)
    ensures r.None? <==> forall i :: 0 <= i < |t.data| ==> !Matches(query, t.data[i])
    ensures r.Some? ==> r.value == FindMany(t, query)[0]
  {
    SearchOne(query, t.data)
  }

  /** `findMany`: every record matching `query`, in table order. */
  function FindMany(t: Table, query: Fields): (r: seq<Fields>)
    ensures forall x :: x in r <==> x in t.data && Matches(query, x)
    ensures query == map[] ==> r == t.data
  {
    SearchMembers(query, t.data);
    if query == map[] then SearchEmptyQuery(t.data); Search(query, t.data)
    else Search(query, t.data)
  }

  /**
   * `findById`, as documented: the record at the indexed position, or "not found"
   * for an id without an entry. The source then reads `data[undefined]`, which is
   * `undefined` only while no literal `updateOneById` of an unindexed id has stored
   * an object there; this model has no such slot (see `AsWritten.FindByIdAsWritten`).
   */
  function FindById(t: Table, id: string): (r: Option<Fields>)
    ensures r.Some? ==> r.value in t.data
    ensures id !in t.indexes ==> r.None?
    ensures Sound(t) ==> (r.Some? <==> id in t.indexes)
    ensures Sound(t) && r.Some? ==> IdOf(r.value) == Some(id)
    ensures Sound(t) && Complete(t) ==> (r.None? <==> Fresh(t.data, id))
  {
    match Lookup(t, id)
    case Some(i) => Some(t.data[i])
    case None => None
  }

  /**
   * `updateOneById`, as documented: shallow-merges `update` over the indexed
   * record and returns 1, or returns -1 when the id has no index entry.
   */
  function UpdateOneById(t: Table, id: string, update: Fields): (r: Step<int>)
    ensures r.result == 1 || r.result == -1
    ensures Sound(t) ==> (r.result == 1 <==> id in t.indexes)
    ensures r.result == -1 ==> r.table == t
    ensures |r.table.data| == |t.data| && r.table.indexes == t.indexes
    ensures forall j :: 0 <= j < |t.data| && Lookup(t, id) != Some(j) ==> r.table.data[j] == t.data[j]
    ensures Sound(t) && id in t.indexes ==>
      forall k :: Field(r.table.data[t.indexes[id]], k)
                  == (if k in update then update[k] else Field(t.data[t.indexes[id]], k))
    ensures InRange(t) ==> InRange(r.table)
    ensures "id" !in update && Sound(t) ==> Sound(r.table)
    ensures "id" !in update && Complete(t) ==> Complete(r.table)
    ensures "id" !in update && UniqueIds(t.data) ==> UniqueIds(r.table.data)
  {
    match Lookup(t, id)
    case None => Step(t, -1)
    case Some(i) =>
      var merged := Spread(t.data[i], update);
      assert "id" !in update ==> IdOf(merged) == IdOf(t.data[i]);
      Step(Table(t.data[i := merged], t.indexes), 1)
  }

  /** Splicing out position `i` removes exactly one occurrence of `data[i]`. */
  lemma SpliceMultiset(data: seq<Fields>, i: nat)
    requires i < |data|
    ensures multiset(data[..i] + data[i + 1..]) + multiset{data[i]} == multiset(data)
  {
    assert data == data[..i] + [data[i]] + data[i + 1..];
  }

  /** Splicing out position `i` keeps ids unique, and no remaining record has the removed id. */
  lemma SpliceKeepsUniqueIds(data: seq<Fields>, i: nat)
    requires i < |data|
    ensures UniqueIds(data) ==> UniqueIds(data[..i] + data[i + 1..])
    ensures UniqueIds(data) && IdOf(data[i]).Some? ==> Fresh(data[..i] + data[i + 1..], IdOf(data[i]).value)
  {
  }

  /** `splice(i, 1)` followed by `buildIndexes()`, returning the removed record. */
  function RemoveAt(t: Table, i: nat): (r: Step<Option<Fields>>)
    requires i < |t.data|
    ensures RemovedAt(t.data, r.table.data, i)
    ensures r.result == Some(t.data[i])
    ensures Sound(r.table) && Complete(r.table)
    ensures multiset(r.table.data) + multiset{t.data[i]} == multiset(t.data)
    ensures UniqueIds(t.data) ==> UniqueIds(r.table.data)
    ensures UniqueIds(t.data) && IdOf(t.data[i]).Some? ==> Fresh(r.table.data, IdOf(t.data[i]).value)
  {
    var rest := t.data[..i] + t.data[i + 1..];
    SpliceMultiset(t.data, i);
    SpliceKeepsUniqueIds(t.data, i);
    Step(Table(rest, BuildIndexes(rest)), Some(t.data[i]))
  }

  /** `deleteOne`: removes and returns the first record matching `query`, or returns `undefined`. */
  function DeleteOne(t: Table, query: Fields): (r: Step<Option<Fields>>)
    ensures r.result.None? <==> forall i :: 0 <= i < |t.data| ==> !Matches(query, t.data[i])
    ensures r.result.None? ==> r.table == t
    ensures r.result.Some? ==> r.result == FindOne(t, query)
    ensures r.result.Some? ==>
      exists i :: RemovedAt(t.data, r.table.data, i) && t.data[i] == r.result.value
                  && forall j :: 0 <= j < i ==> !Matches(query, t.data[j])
    ensures r.result.Some? ==> Sound(r.table) && Complete(r.table)
    ensures InRange(t) ==> InRange(r.table)
    ensures UniqueIds(t.data) ==> UniqueIds(r.table.data)
  {
    var i := GetIndex(query, t.data);
    if i != -1 then RemoveAt(t, i) else Step(t, None)
  }

  /**
   * `deleteOneById`, as documented: removes and returns the indexed record, or
   * returns `undefined` when the id has no index entry.
   */
  function DeleteOneById(t: Table, id: string): (r: Step<Option<Fields>>)
    ensures Sound(t) ==> (r.result.Some? <==> id in t.indexes)
    ensures r.result.None? ==> r.table == t
    ensures r.result.Some? ==> exists i :: RemovedAt(t.data, r.table.data, i) && t.data[i] == r.result.value
    ensures Sound(t) && id in t.indexes ==> RemovedAt(t.data, r.table.data, t.indexes[id])
    ensures r.result.Some? ==> Sound(r.table) && Complete(r.table)
    ensures Sound(t) && r.result.Some? ==> IdOf(r.result.value) == Some(id)
    ensures InRange(t) ==> InRange(r.table)
    ensures Sound(t) && UniqueIds(t.data) ==> FindById(r.table, id) == None && UniqueIds(r.table.data)
  {
    match Lookup(t, id)
    case None => Step(t, None)
    case Some(i) => RemoveAt(t, i)
  }
}

=== FILE: model_properties.dfy ===
/**
 * Properties that relate several operations of `Model<T>` (src/Model.ts), and
 * the scenarios its tests walk through.
 */
module ModelProperties {
  import opened Wrappers
  import opened Values
  import opened QueryHelpers
  import opened Model

  /** The query `{ id }` matches exactly the records whose id is `id`. */
  lemma IdQueryMatches(id: string, record: Fields)
    ensures Matches(map["id" := Str(id)], record) <==> IdOf(record) == Some(id)
  {
  }

  /**
   * With a sound, complete index over unique ids, `findById(id)` and
   * `findOne({ id })` return the same record.
   */
  lemma FindByIdAgreesWithFindOne(t: Table, id: string)
    requires Sound(t) && Complete(t) && UniqueIds(t.data)
    ensures FindById(t, id) == FindOne(t, map["id" := Str(id)])
  {
  }

  /** When some record matches, `deleteOne(query)` drops exactly the head of `findMany(query)`. */
  lemma DeleteOneDropsFirstMatch(t: Table, query: Fields, i: nat)
    requires i < |t.data| && Matches(query, t.data[i])
    ensures FindMany(DeleteOne(t, query).table, query) == FindMany(t, query)[1..]
  {
    SearchWithoutMatchAt(query, t.data, GetIndex(query, t.data));
  }

  /**
   * Deleting an indexed id leaves every other record reachable by its own id,
   * at its new position.
   */
  lemma DeleteOneByIdKeepsOthers(t: Table, id: string, j: nat, other: string)
    requires Sound(t) && UniqueIds(t.data) && id in t.indexes
    requires j < |t.data| && IdOf(t.data[j]) == Some(other) && other != id
    ensures FindById(DeleteOneById(t, id).table, other) == Some(t.data[j])
  {
    var i := t.indexes[id];
    var after := DeleteOneById(t, id).table;
    assert j != i;
    var k := if j < i then j else j - 1;
    assert after.data[k] == t.data[j];
    assert Lookup(after, other) == Some(k);
  }

  /** After `deleteOneById(id)` the table holds one record fewer, and none with that id. */
  lemma DeleteOneByIdRemovesTheId(t: Table, id: string)
    requires Sound(t) && UniqueIds(t.data) && id in t.indexes
    ensures |DeleteOneById(t, id).table.data| == |t.data| - 1
    ensures Fresh(DeleteOneById(t, id).table.data, id)
  {
  }

  /** `updateOneById` with fields other than `id` is then visible through `findById`. */
  lemma UpdateThenFindById(t: Table, id: string, update: Fields)
    requires Sound(t) && id in t.indexes && "id" !in update
    ensures FindById(UpdateOneById(t, id, update).table, id)
            == Some(Spread(FindById(t, id).value, update))
  {
  }

  /**
   * An update that carries a different `id` rewrites the record's id but not the
   * index, which then points at a record with another id.
   */
  lemma UpdateRewritingIdBreaksSoundness(t: Table, id: string, update: Fields)
    requires Sound(t) && id in t.indexes
    requires "id" in update && update["id"] != Str(id)
    ensures !Sound(UpdateOneById(t, id, update).table)
  {
  }

  /** Every record `insertMany` appends is reachable by its generated id. */
  lemma InsertManyThenFindById(t: Table, records: seq<Fields>, ids: seq<string>, i: nat)
    requires |ids| == |records| && Distinct(ids)
    requires i < |ids|
    ensures FindById(InsertMany(t, records, ids), ids[i]) == Some(WithId(records[i], ids[i]))
  {
    InsertManyIndexes(t, records, ids);
    var r := InsertMany(t, records, ids);
    var k := |t.data| + i;
    assert r.indexes[ids[i]] == k;
    assert r.data[k] == WithId(records[i], ids[i]);
    assert Lookup(r, ids[i]) == Some(k);
  }

  /** `insertMany` into a new table, then `findMany({})`, returns the rows in insertion order. */
  lemma InsertManyThenFindAll(records: seq<Fields>, ids: seq<string>)
    requires |ids| == |records|
    ensures FindMany(InsertMany(NewTable([]), records, ids), map[]) == Tagged(records, ids)
  {
  }

  /** `insertOne({ name: "John Doe" })` into a new table, then `findById(id)`, gives `{ id, name: "John Doe" }`. */
  lemma InsertOneScenario(id: string)
    ensures FindById(InsertOne(NewTable([]), map["name" := Str("John Doe")], id).table, id)
            == Some(map["name" := Str("John Doe"), "id" := Str(id)])
  {
    assert WithId(map["name" := Str("John Doe")], id) == map["name" := Str("John Doe"), "id" := Str(id)];
  }

  /** `updateOneById(id, { name: "Not John Doe" })` after the insert above: `{ id, name: "Not John Doe" }`. */
  lemma UpdateScenario(id: string)
    ensures
      var inserted := InsertOne(NewTable([]), map["name" := Str("John Doe")], id).table;
      var updated := UpdateOneById(inserted, id, map["name" := Str("Not John Doe")]);
      updated.result == 1
      && FindById(updated.table, id) == Some(map["id" := Str(id), "name" := Str("Not John Doe")])
  {
    var inserted := InsertOne(NewTable([]), map["name" := Str("John Doe")], id).table;
    assert FindById(inserted, id) == Some(map["name" := Str("John Doe"), "id" := Str(id)]) by {
      InsertOneScenario(id);
    }
    UpdateThenFindById(inserted, id, map["name" := Str("Not John Doe")]);
    assert Spread(map["name" := Str("John Doe"), "id" := Str(id)], map["name" := Str("Not John Doe")])
           == map["id" := Str(id), "name" := Str("Not John Doe")];
  }

  /** On an empty table nothing is found, by id or by query. */
  lemma EmptyTableFindsNothing(id: string, query: Fields)
    ensures FindById(NewTable([]), id) == None
    ensures FindOne(NewTable([]), query) == None
  {
  }
}

=== FILE: query_helpers.dfy ===
/**
 * Exact-match querying over a table's records (src/utils/queryHelpers.ts).
 *
 * A record matches a query when every key of the query holds the same value in
 * the record, compared with `===`; an absent key of the record reads as `undefined`.
 */
module QueryHelpers {
  import opened Wrappers
  import opened Values

  /** The predicate shared by `search` and `getIndex`. */
  predicate Matches(query: Fields, record: Fields)
  {
    forall key :: key in query ==> query[key] == Field(record, key)
  }

  /** `search`: `data.filter(matches)`. */
  function Search(query: Fields, data: seq<Fields>): (r: seq<Fields>)
    ensures |r| <= |data|
    ensures forall i :: 0 <= i < |r| ==> Matches(query, r[i])
    decreases |data|
  {
    if |data| == 0 then []
    else
      (if Matches(query, data[0]) then [data[0]] else []) + Search(query, data[1..])
  }

  /** `getIndex`: `data.findIndex(matches)`, the position of the first match or -1. */
  function GetIndex(query: Fields, data: seq<Fields>): (i: int)
    ensures -1 <= i < |data|
    ensures i == -1 <==> forall j :: 0 <= j < |data| ==> !Matches(query, data[j])
    ensures i != -1 ==> Matches(query, data[i])
    ensures i != -1 ==> forall j :: 0 <= j < i ==> !Matches(query, data[j])
    decreases |data|
  {
    if |data| == 0 then -1
    else if Matches(query, data[0]) then 0
    else
      var k := GetIndex(query, data[1..]);
      if k == -1 then -1 else k + 1
  }

  /** `searchOne`: the record at `getIndex`, or `undefined` when it is -1. */
  function SearchOne(query: Fields, data: seq<Fields>): (r: Option<Fields>)
    ensures r.None? <==> forall j :: 0 <= j < |data| ==> !Matches(query, data[j])
    ensures r.Some? ==> r.value in data && Matches(query, r.value)
    ensures r.None? <==> Search(query, data) == []
    ensures r.Some? ==> r.value == Search(query, data)[0]
  {
    SearchHeadIsFirstMatch(query, data);
    var i := GetIndex(query, data);
    if i == -1 then None else Some(data[i])
  }

  /** The first element of `search`'s result is the record `getIndex` points at. */
  lemma {:induction false} SearchHeadIsFirstMatch(query: Fields, data: seq<Fields>)
    ensures GetIndex(query, data) == -1 <==> Search(query, data) == []
    ensures GetIndex(query, data) != -1 ==> Search(query, data)[0] == data[GetIndex(query, data)]
    decreases |data|
  {
    if |data| > 0 && !Matches(query, data[0]) {
      SearchHeadIsFirstMatch(query, data[1..]);
    }
  }

  /** `search` keeps exactly the matching records, each as often as it occurs in `data`. */
  lemma {:induction false} SearchCounts(query: Fields, data: seq<Fields>)
    ensures forall x :: multiset(Search(query, data))[x] == (if Matches(query, x) then multiset(data)[x] else 0)
    decreases |data|
  {
    if |data| > 0 {
      SearchCounts(query, data[1..]);
      assert data == [data[0]] + data[1..];
    }
  }

  /** A record is in `search`'s result exactly when it is in `data` and matches. */
  lemma SearchMembers(query: Fields, data: seq<Fields>)
    ensures forall x :: x in Search(query, data) <==> x in data && Matches(query, x)
  {
  }

  /** `search` distributes over concatenation: it keeps the records' order. */
  lemma {:induction false} SearchAppend(query: Fields, a: seq<Fields>, b: seq<Fields>)
    ensures Search(query, a + b) == Search(query, a) + Search(query, b)
    decreases |a|
  {
    if |a| == 0 {
      assert a + b == b;
    } else {
      var head := if Matches(query, a[0]) then [a[0]] else [];
      assert (a + b)[0] == a[0];
      assert (a + b)[1..] == a[1..] + b;
      assert Search(query, a + b) == head + Search(query, a[1..] + b);
      SearchAppend(query, a[1..], b);
      assert Search(query, a) == head + Search(query, a[1..]);
    }
  }

  /** `search` finds nothing in records none of which match. */
  lemma {:induction false} SearchNoMatch(query: Fields, data: seq<Fields>)
    requires forall j :: 0 <= j < |data| ==> !Matches(query, data[j])
    ensures Search(query, data) == []
    decreases |data|
  {
    if |data| > 0 {
      SearchNoMatch(query, data[1..]);
    }
  }

  /** Splicing out a first match `x` removes exactly the head of `search`'s result. */
  lemma SearchWithoutFirstMatch(query: Fields, pre: seq<Fields>, x: Fields, post: seq<Fields>)
    requires forall j :: 0 <= j < |pre| ==> !Matches(query, pre[j])
    requires Matches(query, x)
    ensures Search(query, pre + [x] + post) == [x] + Search(query, pre + post)
  {
    SearchNoMatch(query, pre);
    SearchSingleton(query, x);
    SearchAppend(query, [x], post);
    SearchAppend(query, pre, [x] + post);
    SearchAppend(query, pre, post);
    assert pre + [x] + post == pre + ([x] + post);
  }

  /** The same, for the first match at position `i` of `data`. */
  lemma SearchWithoutMatchAt(query: Fields, data: seq<Fields>, i: nat)
    requires i < |data| && Matches(query, data[i])
    requires forall j :: 0 <= j < i ==> !Matches(query, data[j])
    ensures Search(query, data) != []
    ensures Search(query, data[..i] + data[i + 1..]) == Search(query, data)[1..]
  {
    var pre, post := data[..i], data[i + 1..];
    assert data == pre + [data[i]] + post;
    assert forall j :: 0 <= j < |pre| ==> pre[j] == data[j];
    SearchWithoutFirstMatch(query, pre, data[i], post);
  }

  /** `search` of a single record keeps it exactly when it matches. */
  lemma SearchSingleton(query: Fields, x: Fields)
    ensures Search(query, [x]) == (if Matches(query, x) then [x] else [])
  {
  }

  /** The empty query `{}` matches every record, so `search` returns `data` unchanged. */
  lemma {:induction false} SearchEmptyQuery(data: seq<Fields>)
    ensures Search(map[], data) == data
    decreases |data|
  {
    if |data| > 0 {
      SearchEmptyQuery(data[1..]);
      assert data == [data[0]] + data[1..];
    }
  }

  /** Searching a search result again with the same query changes nothing. */
  lemma {:induction false} SearchIdempotent(query: Fields, data: seq<Fields>)
    ensures Search(query, Search(query, data)) == Search(query, data)
    decreases |data|
  {
    if |data| > 0 {
      var head := if Matches(query, data[0]) then [data[0]] else [];
      SearchIdempotent(query, data[1..]);
      SearchAppend(query, head, Search(query, data[1..]));
      if Matches(query, data[0]) {
        SearchSingleton(query, data[0]);
      } else {
        assert Search(query, head) == [];
      }
    }
  }
}

=== FILE: values.dfy ===
/**
 * Field values, records and queries of the store (src/types.ts).
 *
 * A record (`SchemaWithId<T>`) and a query (`Query<T>`, a partial record) are both
 * plain objects, modelled here as finite maps from field name to value.
 */
module Values {
  import opened Wrappers

  /**
   * A JSON primitive, plus `Undefined`: what JavaScript yields when a key is absent.
   * Numbers are restricted to integers, so that `===` is structural equality.
   */
  datatype Value = Undefined | Null | Bool(b: bool) | Num(n: int) | Str(s: string)

  /** An object with primitive field values: a record, a query or an update. */
  type Fields = map<string, Value>

  /** `obj[key]`: the value stored at `key`, or `undefined` when the object has no such key. */
  function Field(obj: Fields, key: string): Value
  {
    if key in obj then obj[key] else Undefined
  }

  /** The record's `id` when it is a string; records written by the store always have one. */
  function IdOf(obj: Fields): Option<string>
  {
    match Field(obj, "id")
    case Str(s) => Some(s)
    case _ => None
  }

  /**
   * Object spread `{ ...base, ...over }`: every key of either object, with the
   * value from `over` wherever `over` has the key.
   */
  function Spread(base: Fields, over: Fields): (r: Fields)
    ensures r.Keys == base.Keys + over.Keys
    ensures forall k :: Field(r, k) == (if k in over then over[k] else Field(base, k))
  {
    base + over
  }

  /** `{ ...fields, id }`: the row the store appends on insert. */
  function WithId(fields: Fields, id: string): (r: Fields)
    ensures IdOf(r) == Some(id)
    ensures r.Keys == fields.Keys + {"id"}
    ensures forall k :: k != "id" ==> Field(r, k) == Field(fields, k)
  {
    Spread(fields, map["id" := Str(id)])
  }
}

=== FILE: wrappers.dfy ===
/** The optional value used wherever the source returns `T | undefined`. */
module Wrappers {

  /** `None` stands for JavaScript's `undefined` result; `Some(v)` for a present value. */
  datatype Option<+T> = None | Some(value: T)
}
